=== FILE: README.md ===
# Solar-irradiance SARIMAX pipeline: verified model of its exact logic

The modelled program forecasts hourly solar irradiance. It reads a weather table,
derives calendar, interaction, lag and rolling features, splits the table into a
training prefix and a test suffix, selects features by three score thresholds, fits
three seasonal ARIMA variants, and blends their forecasts into one weighted ensemble.
If every model fails, it falls back to the first one.

This Dafny project models the parts of that pipeline that are exact logic. The
statistics and the model fitting are foreign library calls, so they become inputs
or oracle outcomes.

- `wrappers.dfy` (`Wrappers`): `Option` and `Result`. `None` stands for a NaN cell or a failed call.
- `seqs.dfy` (`Seqs`): an order-preserving `Filter` and a first-occurrence `Dedup`, with their lemmas.
- `calendar.dfy` (`Calendar`): decodes a `YYYYMMDD` integer into a date (the `%Y%m%d` parse).
  It computes the pandas day of week (Monday = 0) from a day count starting at 0001-01-01, a Monday.
  It also computes the season (`month % 12 // 3 + 1`) and the weekend flag.
- `features.dfy` (`FeatureBuilder`): the exact-logic part of `load_and_preprocess_data` after the file read.
  That covers date decoding, the 2015-01-01..2016-12-31 window, the integer calendar columns and
  the weather products. It also covers `shift(1)`, `shift(24)`, `shift(168)`, `rolling(24).mean()`
  and `dropna()`. Shifts and windows count rows of the filtered table, as pandas does.
- `split.dfy` (`TrainTestSplit`): the `iloc[:train_size]` / `iloc[train_size:]` split in `main`.
- `selection.dfy` (`FeatureSelection`): the threshold filters and the union in
  `feature_selection_analysis`, with the three score vectors given as inputs.
- `ensemble.dfy` (`Ensemble`): `ensemble_forecast` as the method `EnsembleForecast`. Its first loop
  (`CollectForecasts`) collects the forecasts that succeed. Its second loop (`WeightedSum`) adds the
  weighted forecasts into a zero-initialised array. Both loops are proved against specification
  functions (`Survivors`, `Blend`). The fallback in `main` is the method `ForecastWithFallback`.

Four behaviours of the code are worth knowing, and the model keeps each of them:

- The weekly lag (`shift(168)`, line 45) makes `dropna` remove the first 168 rows of the filtered
  table (`DropNaIsSuffix`). A filtered table of 168 rows or fewer therefore comes out empty.
- The date carries no time of day, so `hour` (line 25) is 0 on every row, and consecutive rows of
  one day share a timestamp. The lags at lines 44-45, commented "same hour", therefore count rows,
  not hours. The train/test boundary is ordered by position. For a file in date order, the
  boundary is only non-decreasing in time (`SplitIsChronological`), not strictly increasing: a file whose rows all carry one date yields a last training row and a first
  test row with the same date (`SameDayStraddlesSplit`).
- When only one model survives, its forecast is weighted 0.4. Weights are never renormalised
  (`SingleSurvivor`, `TotalWeight`). A survivor beyond the third is weighted `1/len(forecasts)`,
  one over the number of ALL survivors (`WeightBeyondThree`).
- The fallback re-invokes `models[0]`, commented "Use first successful model" at line 326. That model's forecast already failed whenever the fallback
  is reached. So with a deterministic model the fallback never produces a forecast
  (third `ensures` of `ForecastWithFallback`).

## Model

| member | source | states |
|---|---|---|
| `Calendar.ParseDate` | improved_sarimax_model.py:18 | a decoded date is a valid calendar date, within the pandas nanosecond range, whose YYYYMMDD value is the input |
| `Calendar.ParseKey` | improved_sarimax_model.py:18 | every representable valid date is decoded back from its YYYYMMDD value (the parse is the inverse of writing the date) |
| `Calendar.KeyOrder` | improved_sarimax_model.py:22 | chronological order of valid dates is exactly the order of their YYYYMMDD integers |
| `Calendar.DayNumberNext` | improved_sarimax_model.py:26 | the day count grows by exactly one from each date to the next, across month, year and leap-year ends |
| `Calendar.YearLength` | improved_sarimax_model.py:26 | a year has 366 days exactly when it is a Gregorian leap year |
| `Calendar.DayOfWeekNext` | improved_sarimax_model.py:26 | `dayofweek` advances by one modulo 7 from each day to the next |
| `Calendar.FirstWindowDayIsThursday` | improved_sarimax_model.py:26 | 2015-01-01 gets day of week 3 (Thursday, counting Monday as 0), which fixes the convention |
| `Calendar.Season` | improved_sarimax_model.py:28 | the season is in 1..4: Dec/Jan/Feb 1, Mar-May 2, Jun-Aug 3, Sep-Nov 4 |
| `Calendar.IsWeekend` | improved_sarimax_model.py:29 | the flag is 0 or 1, and 1 exactly for day of week 5 or 6 |
| `Calendar.FirstWindowWeekend` | improved_sarimax_model.py:26-29 | 3 and 4 January 2015 (a Saturday and a Sunday) are flagged as weekend, Monday 5 January is not |
| `FeatureBuilder.ParseDates` | improved_sarimax_model.py:18-19 | the load fails exactly when some date does not decode; otherwise each row keeps its measurements and gets the date its integer encodes |
| `FeatureBuilder.WindowFilterKeys` | improved_sarimax_model.py:22 | the window keeps exactly the rows whose YYYYMMDD value lies in [20150101, 20161231], each with its number of occurrences, and drops every other row |
| `FeatureBuilder.WindowFilterAppend` | improved_sarimax_model.py:22 | filtering a concatenation filters each part and keeps them in order, so the window keeps the rows' relative order |
| `Seqs.FilterAppend` | improved_sarimax_model.py:22 | the order-preserving filter distributes over concatenation; with the one-element case this fixes the filter completely |
| `Seqs.FilterCounts` | improved_sarimax_model.py:52 | a filtered sequence holds every passing element as many times as the input, and no failing element |
| `FeatureBuilder.Product` | improved_sarimax_model.py:38-40 | a product cell is missing exactly when either factor is, and otherwise is the product of the two values |
| `FeatureBuilder.MakeRow` | improved_sarimax_model.py:25-40 | an engineered row carries its row's date and four measurements, hour 0, the month, the day of week (0..6) of its date, the season of its month, a weekend flag that is 1 exactly on day 5 or 6, and the three weather products |
| `FeatureBuilder.RowColumns` | improved_sarimax_model.py:25-40 | row t of the engineered table has row t's measurements, the calendar columns of row t's date, a weekend flag that is 1 iff the day is 5 or 6 and 0 iff it is below 5, and each product present iff both factors are, with their product as value |
| `FeatureBuilder.ConsecutiveDays` | improved_sarimax_model.py:26 | when row t+1 is dated the calendar day after row t, its day of week is row t's plus one, modulo 7 |
| `FeatureBuilder.Shift` | improved_sarimax_model.py:43-45 | `shift(k)` has the column's length, row t holds row t-k, and the first k rows are missing |
| `FeatureBuilder.Features` | improved_sarimax_model.py:25-48 | one engineered row per input row, carrying that row's date and target, with the lag and rolling columns taken from the whole target column |
| `FeatureBuilder.LagAlignment` | improved_sarimax_model.py:43-45 | for k in {1, 24, 168}, the lag-k value at row t is the target of row t-k, and it is missing when t < k |
| `FeatureBuilder.LagsUseOnlyEarlierRows` | improved_sarimax_model.py:43-45 | two tables whose targets agree before row t have the same three lags at row t, so the lags never read row t or later |
| `FeatureBuilder.RollingMeanAt` | improved_sarimax_model.py:48 | where the 24-row window is complete, the rolling value is the window's sum divided by its length |
| `FeatureBuilder.RollingMeanWindow` | improved_sarimax_model.py:48 | the rolling mean at row t depends only on the targets of rows t-23..t |
| `FeatureBuilder.RollingMeanSeesCurrentRow` | improved_sarimax_model.py:48 | changing only the target of row t changes the rolling mean at row t, so the window includes the current row |
| `FeatureBuilder.DropNa` | improved_sarimax_model.py:52 | the rows kept are exactly the input rows without a missing cell, each as many times as in the input; rows with a missing cell do not occur |
| `FeatureBuilder.DropNaAppend` | improved_sarimax_model.py:52 | `dropna` of a concatenation is the concatenation of the parts' `dropna`, so it keeps the rows' relative order |
| `FeatureBuilder.MakeRowComplete` | improved_sarimax_model.py:25-52 | an engineered row is complete exactly when its four measurements, three lags and rolling mean are present |
| `FeatureBuilder.CompleteAfterWarmup` | improved_sarimax_model.py:43-52 | with no missing measurement, row t is complete exactly when t >= 168 |
| `FeatureBuilder.DropNaIsSuffix` | improved_sarimax_model.py:43-52 | with no missing measurement, `dropna` yields the suffix from row 168, of length max(0, n-168) |
| `FeatureBuilder.LoadAndPreprocess` | improved_sarimax_model.py:13-54 | the load fails exactly on an undecodable date; otherwise a row is returned if and only if it is a complete row of the engineered window, and every returned row has hour 0 and lies in the 2015-2016 window |
| `FeatureBuilder.LoadDropsWarmup` | improved_sarimax_model.py:13-54 | when the rows in the window have no missing measurement, the engineered table is exactly their engineered rows from the 169th on |
| `FeatureBuilder.LoadPreservesDateOrder` | improved_sarimax_model.py:18-52 | an input whose dates never decrease yields an engineered table whose dates never decrease |
| `TrainTestSplit.TrainSize` | improved_sarimax_model.py:214 | the training size is floor(4n/5): 5k <= 4n < 5k+5 |
| `TrainTestSplit.SplitAt` | improved_sarimax_model.py:215-216 | train followed by test is the whole table, and train has exactly k rows |
| `TrainTestSplit.TrainTest` | improved_sarimax_model.py:214-216 | the split of the engineered table recombines to it, has a training part of floor(4n/5) rows, and leaves a non-empty test part for a non-empty table |
| `TrainTestSplit.SplitPartitions` | improved_sarimax_model.py:215-216 | each position lands in exactly one part: below k in train at the same place, otherwise in test shifted by k |
| `TrainTestSplit.SplitIsChronological` | improved_sarimax_model.py:214-216 | on a date-ordered table, no training row is dated after any test row |
| `TrainTestSplit.SameDayStraddlesSplit` | improved_sarimax_model.py:214-216 | a file of at least 170 rows, all complete and dated one day of the window, loads successfully, and the split of its engineered table has a last training row and a first test row with that same date |
| `FeatureSelection.AbsScore` | improved_sarimax_model.py:68 | `.abs()` keeps NaN and yields the non-negative magnitude of a number |
| `FeatureSelection.FeatureColumns` | improved_sarimax_model.py:59 | the feature columns are exactly the table's columns other than the target |
| `FeatureSelection.Passing` | improved_sarimax_model.py:83-85 | a name passes exactly when one of its scores is a number above the threshold (NaN never passes) |
| `FeatureSelection.SelectFeatures` | improved_sarimax_model.py:56-88 | fails exactly when the target is not a column; otherwise a duplicate-free list holding exactly the columns that pass the MI, correlation (over features plus target) or F threshold |
| `FeatureSelection.FeatureSelectedIff` | improved_sarimax_model.py:83-88 | with distinct column names, a feature is selected iff mi > 0.01 or abs(corr) > 0.1 or f > 10 |
| `FeatureSelection.TargetSelected` | improved_sarimax_model.py:67-68 | the target is selected iff the absolute value of its self-correlation exceeds 0.1; a self-correlation of 1 puts the target in the selected set |
| `FeatureSelection.SelectFeaturesExcludingTarget` | improved_sarimax_model.py:58-88 | the corrected selection: same thresholds, correlations over the feature columns only, and the target is never selected |
| `FeatureSelection.CorrectedDiffersOnlyByTarget` | improved_sarimax_model.py:67-88 | the corrected selection is the selection as written minus the target column |
| `Seqs.Dedup` | improved_sarimax_model.py:88 | `list(set(...))`: no duplicates, and the same elements as the concatenated lists |
| `Ensemble.Survivors` | improved_sarimax_model.py:142-156 | the collected forecasts come from successful models only, and the list is empty exactly when every model failed |
| `Ensemble.EnsembleForecast` | improved_sarimax_model.py:140-171 | returns `None` exactly when every model failed; otherwise a forecast of the requested length equal to the weighted `Blend` of the survivors in model order |
| `Ensemble.SurvivorsAppend` | improved_sarimax_model.py:142-156 | collecting over a concatenation of outcomes collects each part in order, so the list has one entry per successful model, in model order, and nothing else |
| `Ensemble.SurvivorsSingleton` | improved_sarimax_model.py:145-156 | one model adds its forecast to the list when it succeeds and nothing when it raises |
| `Ensemble.CollectForecasts` | improved_sarimax_model.py:142-156 | the first loop leaves exactly the forecasts of the models that did not raise, in model order (`Survivors`) |
| `Ensemble.WeightedSum` | improved_sarimax_model.py:161-167 | adding each weighted forecast into a zero array yields exactly `Blend` of the forecasts |
| `Ensemble.Blend` | improved_sarimax_model.py:161-167 | the blended forecast is as long as the first surviving forecast |
| `Ensemble.SurvivorAtRank` | improved_sarimax_model.py:158-167 | a successful model's forecast sits in the survivor list at its rank, the number of successful models before it, which selects its weight |
| `Ensemble.FirstSuccessTakesFirstWeight` | improved_sarimax_model.py:144-165 | if the models before it failed, the first successful model gets weight 0.4 (model 2 gets 0.4 when model 1 fails) |
| `Ensemble.SingleSurvivor` | improved_sarimax_model.py:160-165 | a lone survivor is not renormalised: the ensemble is 0.4 times its forecast |
| `Ensemble.TotalWeight` | improved_sarimax_model.py:160-167 | the weights of 1, 2 and 3 survivors sum to 0.4, 0.7 and 1.0 |
| `Ensemble.WeightBeyondThree` | improved_sarimax_model.py:163-167 | from the third survivor on, each further survivor adds 1/count, so the total weight exceeds 1 beyond three survivors |
| `Ensemble.BlendOfConstants` | improved_sarimax_model.py:161-167 | blending k constant forecasts c gives TotalWeight(k) * c at every step |
| `Ensemble.ThreeIdenticalConstants` | improved_sarimax_model.py:160-167 | three identical constant forecasts c blend to c (exact arithmetic) |
| `Ensemble.ForecastWithFallback` | improved_sarimax_model.py:323-327 | the ensemble is used when one model succeeds; otherwise the result is the re-invocation of `models[0]`, and when that call behaves as before, a forecast comes out exactly when some model succeeded |

## Findings

| source | as written | input that shows it | evidently intended | confidence | as-written member | corrected member |
|---|---|---|---|---|---|---|
| improved_sarimax_model.py:67-88 | the correlation table is built over the feature columns plus the target, so the target's self-correlation (1.0) passes `> 0.1`. The target `irradiance` is then among the selected exogenous features, and the test targets are fed to the forecasting models | any training table whose `irradiance` column is not constant | select among the feature columns only ("excluding target", line 58) | high; not executed | `FeatureSelection.TargetSelected` | `FeatureSelection.SelectFeaturesExcludingTarget` |

## Left out

- Reading the CSV file, all `print` reporting, the plots and `savefig`/`show`, and the results CSV. These are I/O.
- Model fitting and prediction: `advanced_sarimax_tuning` (`auto_arima` and `SARIMAX(...).fit`) and the `predict`/`forecast` calls. These are foreign library calls. Each model's forecast attempt is an input outcome (`Some(forecast)` or `None` when it raised). The `hasattr(model, 'predict')` dispatch at lines 146-151 is part of that outcome.
- `cross_validation_sarimax` and its call in `main`. The folds come from scikit-learn's `TimeSeriesSplit`, and MAE/RMSE/R² are floating-point library metrics with a square root. The same metrics in `main` are left out too.
- `mutual_info_regression`, `f_regression` and `.corr()`. These are library statistics over floats, taken as input scores. The sorting of the three diagnostic frames only feeds printing and the plot.
- The sine/cosine encodings and the 24-row rolling standard deviation. These are transcendental and square-root numerics. The rolling deviation is missing exactly where the rolling mean is, so `dropna` is unaffected.
- Input columns other than date, Temperature, humidity, wind speed and irradiance. A missing value in such a column would also make `dropna` remove the row.
- A missing required column (`date` at line 18, `Temperature`, `humidity` or `wind speed` at lines 38-40, `irradiance` at line 43) raises `KeyError` in the source. `RawRow` always has these five fields, so that error cannot be represented.
- A missing value in the `date` column (which makes `astype(int)` raise). The model takes dates as integers. Date texts other than 8 digits count as parse failures.
- Python floating-point rounding. Measurements and weights are `real`, and `int(len(df) * 0.8)` is floor(4n/5).
- The process-wide warnings filter and the `n_jobs=-1` parallel search.
- `Seqs.Dedup`: the order of `list(set(...))` depends on string hashing in the source; the model keeps first occurrences, and no property depends on the order.
- `Ensemble.EnsembleForecast`: requires every successful forecast to have the requested length. Forecasts of different lengths would make numpy's `+=` raise (or broadcast a length-1 forecast); that is not modelled. The third model is a fitted SARIMAX results object (lines 131-136), which also has a `predict` method, so the `forecast(steps=...)` branch at lines 149-151 is never taken and that model receives the `n_periods`/`exogenous` keywords. If the library ignores those keywords, it returns an in-sample series as long as the training part, which this requirement excludes.
- `Ensemble.ThreeIdenticalConstants`: holds in exact arithmetic. In doubles, 0.4c + 0.3c + 0.3c can differ from c in the last bit.

=== FILE: calendar.dfy ===
/**
 * Calendar features of the engineered table: an 8-digit YYYYMMDD integer decoded
 * into a date, the pandas day of week (Monday = 0), the month, the season and the
 * weekend flag. Dates are proleptic Gregorian, as in pandas.
 */
module Calendar {
  import opened Wrappers

  datatype Date = Date(year: int, month: int, day: int)

  predicate IsLeapYear(y: int) {
    y % 4 == 0 && (y % 100 != 0 || y % 400 == 0)
  }

  function DaysInMonth(y: int, m: int): (n: int)
    requires 1 <= m <= 12
    ensures 28 <= n <= 31
    ensures n == 29 <==> m == 2 && IsLeapYear(y)
  {
    if m == 2 then (if IsLeapYear(y) then 29 else 28)
    else if m == 4 || m == 6 || m == 9 || m == 11 then 30
    else 31
  }

  predicate ValidDate(d: Date) {
    1 <= d.month <= 12 && 1 <= d.day <= DaysInMonth(d.year, d.month)
  }

  /** The date written as the integer YYYYMMDD. */
  function Key(d: Date): int {
    d.year * 10000 + d.month * 100 + d.day
  }

  /**
   * pandas timestamps have nanosecond resolution, so midnight of a date can be
   * represented only from 1677-09-22 to 2262-04-11; other dates raise.
   */
  const MinKey: int := 16770922
  const MaxKey: int := 22620411

  /**
   * Decodes the decimal text of `v` with the format %Y%m%d. Anything that is not
   * a representable calendar date (a bad month or day, out of range) fails.
   */
  function ParseDate(v: int): (r: Option<Date>)
    ensures r.Some? ==> ValidDate(r.value) && Key(r.value) == v
    ensures r.Some? ==> MinKey <= v <= MaxKey
  {
    if v < MinKey || v > MaxKey then None
    else
      DigitSplit(v);
      var d := Date(v / 10000, v / 100 % 100, v % 100);
      if ValidDate(d) then Some(d) else None
  }

  /** The year, month and day digit groups of a YYYYMMDD value write it back. */
  lemma DigitSplit(v: int)
    requires v >= 0
    ensures v / 10000 * 10000 + v / 100 % 100 * 100 + v % 100 == v
  {
    var a := v / 100;
    var b := a / 100;
    assert v == a * 100 + v % 100;
    assert a == b * 100 + a % 100;
    assert a * 100 == b * 10000 + (a % 100) * 100;
    DivUnique(v, 10000, b, (a % 100) * 100 + v % 100);
  }

  /** Parsing is the inverse of writing a date as YYYYMMDD, on the representable range. */
  lemma ParseKey(d: Date)
    requires ValidDate(d) && MinKey <= Key(d) <= MaxKey
    ensures ParseDate(Key(d)) == Some(d)
  {
    var v := Key(d);
    DivUnique(v, 10000, d.year, d.month * 100 + d.day);
    DivUnique(v, 100, d.year * 100 + d.month, d.day);
    DivUnique(d.year * 100 + d.month, 100, d.year, d.month);
  }

  /** Chronological order of two dates, as pandas compares midnight timestamps. */
  predicate Before(a: Date, b: Date) {
    a.year < b.year
    || (a.year == b.year && (a.month < b.month || (a.month == b.month && a.day < b.day)))
  }

  /** On valid dates, chronological order is the order of their YYYYMMDD integers. */
  lemma KeyOrder(a: Date, b: Date)
    requires ValidDate(a) && ValidDate(b)
    ensures Before(a, b) <==> Key(a) < Key(b)
  {
    var la := a.month * 100 + a.day;
    var lb := b.month * 100 + b.day;
    assert 101 <= la <= 1231 && 101 <= lb <= 1231;
    if a.year < b.year {
      assert b.year * 10000 - a.year * 10000 == (b.year - a.year) * 10000;
    } else if a.year > b.year {
      assert a.year * 10000 - b.year * 10000 == (a.year - b.year) * 10000;
    }
  }

  /** Days from 0001-01-01 to the first day of year `y`. */
  function DaysBeforeYear(y: int): int {
    var p := y - 1;
    365 * p + p / 4 - p / 100 + p / 400
  }

  /** Days from the first of January of year `y` to the first day of month `m`. */
  function DaysBeforeMonth(y: int, m: int): int
    requires 1 <= m <= 12
  {
    [0, 31, 59, 90, 120, 151, 181, 212, 243, 273, 304, 334][m - 1]
    + (if m > 2 && IsLeapYear(y) then 1 else 0)
  }

  /** Days elapsed since 0001-01-01, a Monday. */
  function DayNumber(d: Date): int
    requires ValidDate(d)
  {
    DaysBeforeYear(d.year) + DaysBeforeMonth(d.year, d.month) + d.day - 1
  }

  /** pandas `dayofweek`: Monday = 0, ..., Sunday = 6. */
  function DayOfWeek(d: Date): (w: int)
    requires ValidDate(d)
    ensures 0 <= w < 7
  {
    DayNumber(d) % 7
  }

  /** The calendar day after `d`. */
  function NextDay(d: Date): (r: Date)
    requires ValidDate(d)
    ensures ValidDate(r) && Before(d, r)
  {
    if d.day < DaysInMonth(d.year, d.month) then Date(d.year, d.month, d.day + 1)
    else if d.month < 12 then Date(d.year, d.month + 1, 1)
    else Date(d.year + 1, 1, 1)
  }

  lemma MulAtLeast(a: int, k: int)
    requires a >= 1 && k > 0
    ensures a * k >= k
  {
  }

  /** Quotient and remainder are determined by any decomposition with a remainder in range. */
  lemma DivUnique(y: int, k: int, q: int, r: int)
    requires k > 0 && y == q * k + r && 0 <= r < k
    ensures y / k == q && y % k == r
  {
    var q0, r0 := y / k, y % k;
    assert y == q0 * k + r0 && 0 <= r0 < k;
    if q > q0 {
      assert q * k - q0 * k == (q - q0) * k;
      MulAtLeast(q - q0, k);
    } else if q < q0 {
      assert q0 * k - q * k == (q0 - q) * k;
      MulAtLeast(q0 - q, k);
    }
  }

  lemma DivStep(y: int, k: int)
    requires k > 0
    ensures y / k - (y - 1) / k == if y % k == 0 then 1 else 0
  {
    var q, r := (y - 1) / k, (y - 1) % k;
    assert y - 1 == q * k + r && 0 <= r < k;
    if r == k - 1 {
      DivUnique(y, k, q + 1, 0);
    } else {
      DivUnique(y, k, q, r + 1);
    }
  }

  /** A year has 366 days exactly when it is a leap year. */
  lemma YearLength(y: int)
    ensures DaysBeforeYear(y + 1) - DaysBeforeYear(y) == if IsLeapYear(y) then 366 else 365
  {
    DivStep(y, 4);
    DivStep(y, 100);
    DivStep(y, 400);
    if y % 400 == 0 {
      assert (y / 400) * 400 == ((y / 400) * 4) * 100;
      DivUnique(y, 100, (y / 400) * 4, 0);
    }
    if y % 100 == 0 {
      assert (y / 100) * 100 == ((y / 100) * 25) * 4;
      DivUnique(y, 4, (y / 100) * 25, 0);
    }
  }

  /** Consecutive calendar days have consecutive day numbers. */
  lemma DayNumberNext(d: Date)
    requires ValidDate(d)
    ensures DayNumber(NextDay(d)) == DayNumber(d) + 1
  {
    if d.day == DaysInMonth(d.year, d.month) && d.month == 12 {
      YearLength(d.year);
    }
  }

  /** The day of week advances by one, cyclically, from each day to the next. */
  lemma DayOfWeekNext(d: Date)
    requires ValidDate(d)
    ensures DayOfWeek(NextDay(d)) == (DayOfWeek(d) + 1) % 7
  {
    DayNumberNext(d);
    var n := DayNumber(d);
    if n % 7 < 6 {
      DivUnique(n + 1, 7, n / 7, n % 7 + 1);
    } else {
      DivUnique(n + 1, 7, n / 7 + 1, 0);
    }
  }

  /** 1 January 2015, the first day of the data window, was a Thursday. */
  lemma FirstWindowDayIsThursday()
    ensures DayOfWeek(Date(2015, 1, 1)) == 3
  {
    assert DaysBeforeYear(2015) == 735598;
  }

  /** `month % 12 // 3 + 1`: December to February are 1, March to May 2, June to August 3, September to November 4. */
  function Season(month: int): (s: int)
    requires 1 <= month <= 12
    ensures 1 <= s <= 4
    ensures s == 1 <==> month == 12 || month <= 2
    ensures s == 2 <==> 3 <= month <= 5
    ensures s == 3 <==> 6 <= month <= 8
    ensures s == 4 <==> 9 <= month <= 11
  {
    month % 12 / 3 + 1
  }

  /** `day_of_week.isin([5, 6]).astype(int)`. */
  function IsWeekend(dayOfWeek: int): (flag: int)
    ensures flag == 0 || flag == 1
    ensures flag == 1 <==> dayOfWeek == 5 || dayOfWeek == 6
  {
    if dayOfWeek in {5, 6} then 1 else 0
  }

  /** The first weekend of the window, 3 and 4 January 2015, is flagged; the Monday after is not. */
  lemma FirstWindowWeekend()
    ensures IsWeekend(DayOfWeek(Date(2015, 1, 3))) == 1
    ensures IsWeekend(DayOfWeek(Date(2015, 1, 4))) == 1
    ensures IsWeekend(DayOfWeek(Date(2015, 1, 5))) == 0
  {
    FirstWindowDayIsThursday();
    DayOfWeekNext(Date(2015, 1, 1));
    DayOfWeekNext(Date(2015, 1, 2));
    DayOfWeekNext(Date(2015, 1, 3));
    DayOfWeekNext(Date(2015, 1, 4));
  }
}

=== FILE: ensemble.dfy ===
/**
 * The weighted ensemble of the fitted models' forecasts, with tolerance for
 * models that fail, and the single-model fallback of the main program. Each
 * model's forecast attempt is an oracle outcome: `Some(forecast)` when the
 * library call returned, `None` when it raised.
 */
module Ensemble {
  import opened Wrappers

  type Forecast = seq<real>

  /** The positional weights of the first three surviving forecasts. */
  const Weights: seq<real> := [0.4, 0.3, 0.3]

  /** The forecasts that were produced, in model order (the `forecasts` list). */
  function Survivors(outcomes: seq<Option<Forecast>>): (fs: seq<Forecast>)
    ensures |fs| <= |outcomes|
    ensures forall f :: f in fs ==> Some(f) in outcomes
    ensures fs == [] <==> forall i :: 0 <= i < |outcomes| ==> outcomes[i].None?
  {
    if outcomes == [] then []
    else
      var init := outcomes[..|outcomes| - 1];
      assert forall o :: o in outcomes <==> o in init || o == outcomes[|outcomes| - 1];
      match outcomes[|outcomes| - 1]
      case None => Survivors(init)
      case Some(f) => Survivors(init) + [f]
  }

  /**
   * Collecting over a concatenation collects each part and keeps them in order;
   * with `SurvivorsSingleton` this fixes the list: one entry per success, nothing else.
   */
  lemma {:induction false} SurvivorsAppend(a: seq<Option<Forecast>>, b: seq<Option<Forecast>>)
    ensures Survivors(a + b) == Survivors(a) + Survivors(b)
    decreases |b|
  {
    if b == [] {
      assert a + b == a;
    } else {
      var b' := b[..|b| - 1];
      assert (a + b)[..|a + b| - 1] == a + b';
      SurvivorsAppend(a, b');
    }
  }

  /** One model contributes its forecast when it succeeds and nothing when it fails. */
  lemma SurvivorsSingleton(o: Option<Forecast>)
    ensures Survivors([o]) == if o.Some? then [o.value] else []
  {
    assert [o][..0] == [];
  }

  /** The weight of the surviving forecast of rank `rank` among `count` survivors. */
  function Coefficient(rank: nat, count: nat): (w: real)
    requires rank < count
    ensures w > 0.0
  {
    if rank < |Weights| then Weights[rank] else 1.0 / (count as real)
  }

  predicate AllOfLength(fs: seq<Forecast>, n: nat) {
    forall i :: 0 <= i < |fs| ==> |fs[i]| == n
  }

  /** Step `j` of the ensemble after the first `m` surviving forecasts have been added in. */
  function Accumulated(fs: seq<Forecast>, m: nat, j: nat): real
    requires m <= |fs| && forall i :: 0 <= i < |fs| ==> j < |fs[i]|
  {
    if m == 0 then 0.0
    else Accumulated(fs, m - 1, j) + Coefficient(m - 1, |fs|) * fs[m - 1][j]
  }

  /** The weighted combination of the surviving forecasts, as long as the first one. */
  function Blend(fs: seq<Forecast>): (r: seq<real>)
    requires |fs| > 0 && AllOfLength(fs, |fs[0]|)
    ensures |r| == |fs[0]|
  {
    seq(|fs[0]|, j requires 0 <= j < |fs[0]| => Accumulated(fs, |fs|, j))
  }

  predicate ForecastsOfLength(outcomes: seq<Option<Forecast>>, n: nat) {
    forall i :: 0 <= i < |outcomes| && outcomes[i].Some? ==> |outcomes[i].value| == n
  }

  lemma {:induction false} SurvivorsOfLength(outcomes: seq<Option<Forecast>>, n: nat)
    requires ForecastsOfLength(outcomes, n)
    ensures AllOfLength(Survivors(outcomes), n)
  {
    if outcomes != [] {
      SurvivorsOfLength(outcomes[..|outcomes| - 1], n);
    }
  }

  /**
   * `ensemble_forecast`: collect the forecasts that succeed, then add
   * `weights[i] * forecast` (or `forecast / len(forecasts)` past the third) into
   * a zero array. Nothing survives: `None`.
   */
  method EnsembleForecast(outcomes: seq<Option<Forecast>>, nPeriods: nat) returns (r: Option<seq<real>>)
    requires ForecastsOfLength(outcomes, nPeriods)
    ensures r.None? <==> forall i :: 0 <= i < |outcomes| ==> outcomes[i].None?
    ensures r.Some? ==> |r.value| == nPeriods
    ensures r.Some? ==> AllOfLength(Survivors(outcomes), nPeriods) && r.value == Blend(Survivors(outcomes))
  {
    var forecasts := CollectForecasts(outcomes);
    if forecasts == [] {
      return None;
    }
    SurvivorsOfLength(outcomes, nPeriods);
    var ensemble := WeightedSum(forecasts);
    r := Some(ensemble);
  }

  /** The first loop of `ensemble_forecast`: keep, in order, the forecasts that did not raise. */
  method CollectForecasts(outcomes: seq<Option<Forecast>>) returns (forecasts: seq<Forecast>)
    ensures forecasts == Survivors(outcomes)
  {
    forecasts := [];
    for i := 0 to |outcomes|
      invariant forecasts == Survivors(outcomes[..i])
    {
      assert outcomes[..i + 1][..i] == outcomes[..i] && outcomes[..i + 1][i] == outcomes[i];
      match outcomes[i]
      case Some(f) => forecasts := forecasts + [f];
      case None =>
    }
    assert outcomes[..|outcomes|] == outcomes;
  }

  /** The second loop of `ensemble_forecast`: add each weighted forecast into a zero array. */
  method WeightedSum(forecasts: seq<Forecast>) returns (ensemble: seq<real>)
    requires |forecasts| > 0 && AllOfLength(forecasts, |forecasts[0]|)
    ensures ensemble == Blend(forecasts)
  {
    var n := |forecasts[0]|;
    var a := new real[n](_ => 0.0);
    for i := 0 to |forecasts|
      invariant forall j :: 0 <= j < n ==> a[j] == Accumulated(forecasts, i, j)
    {
      var w := Coefficient(i, |forecasts|);
      for j := 0 to n
        invariant forall k :: 0 <= k < j ==> a[k] == Accumulated(forecasts, i + 1, k)
        invariant forall k :: j <= k < n ==> a[k] == Accumulated(forecasts, i, k)
      {
        a[j] := a[j] + w * forecasts[i][j];
      }
    }
    ensemble := a[..];
  }

  /** A model that succeeded is weighted by its rank among the survivors, not by its own position. */
  function Rank(outcomes: seq<Option<Forecast>>, m: nat): nat
    requires m <= |outcomes|
  {
    |Survivors(outcomes[..m])|
  }

  /**
   * The forecast of a model that succeeded sits in the surviving list at its rank, the
   * number of models before it that succeeded; so it receives Coefficient(rank, survivors).
   */
  lemma {:induction false} SurvivorAtRank(outcomes: seq<Option<Forecast>>, m: nat)
    requires m < |outcomes| && outcomes[m].Some?
    ensures Rank(outcomes, m) < |Survivors(outcomes)|
    ensures Survivors(outcomes)[Rank(outcomes, m)] == outcomes[m].value
    decreases |outcomes|
  {
    var init := outcomes[..|outcomes| - 1];
    if m == |outcomes| - 1 {
      assert outcomes[..m] == init;
    } else {
      assert init[..m] == outcomes[..m];
      SurvivorAtRank(init, m);
    }
  }

  /**
   * The first model that succeeds gets the first weight, 0.4, whatever its position:
   * if model 1 fails, model 2's forecast is the one weighted 0.4.
   */
  lemma FirstSuccessTakesFirstWeight(outcomes: seq<Option<Forecast>>, m: nat)
    requires m < |outcomes| && outcomes[m].Some?
    requires forall i :: 0 <= i < m ==> outcomes[i].None?
    ensures Rank(outcomes, m) == 0 && Survivors(outcomes)[0] == outcomes[m].value
    ensures Coefficient(0, |Survivors(outcomes)|) == 0.4
  {
    assert forall i :: 0 <= i < m ==> outcomes[..m][i] == outcomes[i];
    SurvivorAtRank(outcomes, m);
  }

  /** The sum of the weights that `count` survivors receive; it is not renormalised to 1. */
  function TotalWeight(count: nat): (w: real)
    requires count > 0
    ensures count == 1 ==> w == 0.4
    ensures count == 2 ==> w == 0.7
    ensures count == 3 ==> w == 1.0
  {
    PartialWeight(count, count)
  }

  function PartialWeight(m: nat, count: nat): real
    requires m <= count
  {
    if m == 0 then 0.0 else PartialWeight(m - 1, count) + Coefficient(m - 1, count)
  }

  /** Past the third survivor each one adds 1/count, so with more than three survivors the weights exceed 1. */
  lemma {:induction false} WeightBeyondThree(m: nat, count: nat)
    requires 3 <= m <= count
    ensures PartialWeight(m, count) == 1.0 + ((m - 3) as real) / (count as real)
  {
    if m == 3 {
      assert PartialWeight(1, count) == 0.4;
      assert PartialWeight(2, count) == 0.7;
    } else {
      WeightBeyondThree(m - 1, count);
      var c := count as real;
      assert Coefficient(m - 1, count) == 1.0 / c;
      assert ((m - 4) as real) / c + 1.0 / c == ((m - 3) as real) / c;
    }
  }

  /** Combining `count` forecasts that are all the constant `c` gives `TotalWeight(count) * c` at every step. */
  lemma {:induction false} BlendOfConstants(fs: seq<Forecast>, c: real, j: nat)
    requires |fs| > 0 && AllOfLength(fs, |fs[0]|) && j < |fs[0]|
    requires forall i, k :: 0 <= i < |fs| && 0 <= k < |fs[i]| ==> fs[i][k] == c
    ensures Blend(fs)[j] == TotalWeight(|fs|) * c
  {
    AccumulatedOfConstants(fs, c, j, |fs|);
  }

  lemma {:induction false} AccumulatedOfConstants(fs: seq<Forecast>, c: real, j: nat, m: nat)
    requires m <= |fs| && forall i :: 0 <= i < |fs| ==> j < |fs[i]|
    requires forall i, k :: 0 <= i < |fs| && 0 <= k < |fs[i]| ==> fs[i][k] == c
    ensures Accumulated(fs, m, j) == PartialWeight(m, |fs|) * c
  {
    if m > 0 {
      AccumulatedOfConstants(fs, c, j, m - 1);
      assert fs[m - 1][j] == c;
    }
  }

  /** Three identical constant forecasts c combine to c (in exact arithmetic): the weights sum to 1. */
  lemma ThreeIdenticalConstants(f: Forecast, c: real)
    requires |f| > 0 && forall k :: 0 <= k < |f| ==> f[k] == c
    ensures forall j :: 0 <= j < |f| ==> Blend([f, f, f])[j] == c
  {
    forall j | 0 <= j < |f| ensures Blend([f, f, f])[j] == c {
      BlendOfConstants([f, f, f], c, j);
    }
  }

  /** A single surviving forecast is not renormalised: the ensemble is 0.4 times it. */
  lemma SingleSurvivor(f: Forecast)
    requires |f| > 0
    ensures forall j :: 0 <= j < |f| ==> Blend([f])[j] == 0.4 * f[j]
  {
    forall j | 0 <= j < |f| ensures Blend([f])[j] == 0.4 * f[j] {
      assert Accumulated([f], 1, j) == Accumulated([f], 0, j) + Coefficient(0, 1) * f[j];
    }
  }

  datatype ForecastError = NoModels | FallbackFailed

  /**
   * The main program's use of the ensemble: when no forecast survives, it calls
   * `models[0]` again, whether or not that model had succeeded. `retryFirst` is the
   * outcome of that second call.
   */
  method ForecastWithFallback(outcomes: seq<Option<Forecast>>, nPeriods: nat, retryFirst: Option<Forecast>)
    returns (r: Result<Forecast, ForecastError>)
    requires ForecastsOfLength(outcomes, nPeriods)
    ensures (exists i :: 0 <= i < |outcomes| && outcomes[i].Some?) ==>
      AllOfLength(Survivors(outcomes), nPeriods) && r == Success(Blend(Survivors(outcomes)))
    ensures (forall i :: 0 <= i < |outcomes| ==> outcomes[i].None?) ==>
      r == if outcomes == [] then Failure(NoModels)
           else if retryFirst.Some? then Success(retryFirst.value)
           else Failure(FallbackFailed)
    ensures outcomes != [] && retryFirst == outcomes[0] ==>
      (r.Success? <==> exists i :: 0 <= i < |outcomes| && outcomes[i].Some?)
  {
    var ensemble := EnsembleForecast(outcomes, nPeriods);
    if ensemble.Some? {
      r := Success(ensemble.value);
    } else if |outcomes| == 0 {
      r := Failure(NoModels);
    } else if retryFirst.Some? {
      r := Success(retryFirst.value);
    } else {
      r := Failure(FallbackFailed);
    }
  }
}

=== FILE: features.dfy ===
/**
 * Loading and feature engineering of the irradiance table: date decoding, the
 * 2015-2016 window, integer calendar features, weather interaction products,
 * the lagged target at 1, 24 and 168 rows, the trailing 24-row rolling mean,
 * and the final removal of every row with a missing value.
 *
 * Shifts and rolling windows count ROWS of the filtered table, as pandas does;
 * `None` stands for NaN.
 */
module FeatureBuilder {
  import opened Wrappers
  import opened Seqs
  import opened Calendar

  /** One line of the input file: the date as an integer and the four measurements. */
  datatype RawRow = RawRow(
    date: int,
    temperature: Option<real>,
    humidity: Option<real>,
    windSpeed: Option<real>,
    irradiance: Option<real>)

  /** A row whose date has been decoded and made the index. */
  datatype DatedRow = DatedRow(
    date: Date,
    temperature: Option<real>,
    humidity: Option<real>,
    windSpeed: Option<real>,
    irradiance: Option<real>)

  /** A row of the engineered table (the sine/cosine columns and the rolling deviation are not modelled). */
  datatype FeatureRow = FeatureRow(
    date: Date,
    temperature: Option<real>,
    humidity: Option<real>,
    windSpeed: Option<real>,
    irradiance: Option<real>,
    hour: int,
    dayOfWeek: int,
    month: int,
    season: int,
    isWeekend: int,
    tempHumidity: Option<real>,
    tempWind: Option<real>,
    humidityWind: Option<real>,
    lag1: Option<real>,
    lag24: Option<real>,
    lag168: Option<real>,
    rollingMean24: Option<real>)

  datatype BuildError = UnparsableDate(value: int)

  type Column = seq<Option<real>>

  const WindowStart: Date := Date(2015, 1, 1)
  const WindowEnd: Date := Date(2016, 12, 31)
  const RollingWindow: nat := 24
  /** The longest look-back of any engineered column: the weekly lag. */
  const Warmup: nat := 168

  // ---------------------------------------------------------------- dates

  function WithDate(row: RawRow, d: Date): DatedRow {
    DatedRow(d, row.temperature, row.humidity, row.windSpeed, row.irradiance)
  }

  /** Decodes every date; a single undecodable date makes the whole load fail. */
  function ParseDates(raw: seq<RawRow>): (r: Result<seq<DatedRow>, BuildError>)
    ensures r.Failure? <==> exists i :: 0 <= i < |raw| && ParseDate(raw[i].date).None?
    ensures r.Failure? ==> ParseDate(r.error.value).None?
    ensures r.Success? ==> |r.value| == |raw|
    ensures r.Success? ==> forall i :: 0 <= i < |raw| ==>
      ValidDate(r.value[i].date) && Key(r.value[i].date) == raw[i].date
      && r.value[i] == WithDate(raw[i], r.value[i].date)
  {
    if raw == [] then Success([])
    else
      match ParseDate(raw[0].date)
      case None => Failure(UnparsableDate(raw[0].date))
      case Some(d) =>
        match ParseDates(raw[1..])
        case Failure(e) =>
          assert exists i :: 0 <= i < |raw| && ParseDate(raw[i].date).None? by {
            var j :| 0 <= j < |raw[1..]| && ParseDate(raw[1..][j].date).None?;
            assert raw[j + 1] == raw[1..][j];
          }
          Failure(e)
        case Success(rest) =>
          assert forall i :: 1 <= i < |raw| ==> raw[i] == raw[1..][i - 1];
          Success([WithDate(raw[0], d)] + rest)
  }

  /** `index >= '2015-01-01' and index <= '2016-12-31'`. */
  predicate InWindow(row: DatedRow) {
    !Before(row.date, WindowStart) && !Before(WindowEnd, row.date)
  }

  function WindowFilter(rows: seq<DatedRow>): seq<DatedRow> {
    Filter(InWindow, rows)
  }

  /** The window keeps exactly the rows whose YYYYMMDD value lies in [20150101, 20161231]. */
  lemma WindowFilterKeys(rows: seq<DatedRow>)
    requires forall i :: 0 <= i < |rows| ==> ValidDate(rows[i].date)
    ensures forall x :: x in WindowFilter(rows) <==>
      x in rows && 20150101 <= Key(x.date) <= 20161231
    ensures forall x :: x in rows ==> (multiset(WindowFilter(rows))[x] ==
      if 20150101 <= Key(x.date) <= 20161231 then multiset(rows)[x] else 0)
  {
    FilterCounts(InWindow, rows);
    forall x | x in rows
      ensures InWindow(x) <==> 20150101 <= Key(x.date) <= 20161231
    {
      KeyOrder(x.date, WindowStart);
      KeyOrder(WindowEnd, x.date);
    }
  }

  // ---------------------------------------------------------------- columns

  function Missing(n: nat): (r: Column)
    ensures |r| == n && forall t :: 0 <= t < n ==> r[t] == None
  {
    seq(n, _ => None)
  }

  /** pandas `shift(k)`: k missing values in front, the last k values dropped. */
  function Shift(col: Column, k: nat): (r: Column)
    ensures |r| == |col|
    ensures forall t {:trigger r[t]} :: 0 <= t < |col| ==> r[t] == if t < k then None else col[t - k]
  {
    if k >= |col| then Missing(|col|) else Missing(k) + col[..|col| - k]
  }

  predicate AllPresent(w: Column) {
    forall i :: 0 <= i < |w| ==> w[i].Some?
  }

  function Sum(w: Column): real
    requires AllPresent(w)
  {
    if w == [] then 0.0 else Sum(w[..|w| - 1]) + w[|w| - 1].value
  }

  /** The mean of a window, missing as soon as one value in it is missing. */
  function WindowMean(w: Column): Option<real>
    requires |w| > 0
  {
    if AllPresent(w) then Some(Sum(w) / (|w| as real)) else None
  }

  /** pandas `rolling(window=w).mean()`: rows t-w+1..t, missing for the first w-1 rows. */
  function RollingMean(col: Column, w: nat): (r: Column)
    requires w > 0
    ensures |r| == |col|
  {
    seq(|col|, t requires 0 <= t < |col| =>
      if t + 1 < w then None else WindowMean(col[t + 1 - w..t + 1]))
  }

  /** Where its window is complete, the rolling value is the window's sum over its length. */
  lemma RollingMeanAt(col: Column, w: nat, t: nat)
    requires 0 < w <= t + 1 <= |col| && AllPresent(col[t + 1 - w..t + 1])
    ensures RollingMean(col, w)[t] == Some(Sum(col[t + 1 - w..t + 1]) / (w as real))
  {
  }

  /** The product of two columns, cell by cell: missing when either factor is. */
  function Product(a: Option<real>, b: Option<real>): (r: Option<real>)
    ensures r.Some? <==> a.Some? && b.Some?
    ensures r.Some? ==> r.value == a.value * b.value
  {
    if a.Some? && b.Some? then Some(a.value * b.value) else None
  }

  function Irradiance(rows: seq<DatedRow>): (col: Column)
    ensures |col| == |rows| && forall t {:trigger col[t]} :: 0 <= t < |rows| ==> col[t] == rows[t].irradiance
  {
    seq(|rows|, t requires 0 <= t < |rows| => rows[t].irradiance)
  }

  // ---------------------------------------------------------------- the engineered table

  /** Calendar and interaction columns of one row, with the look-back columns given. */
  function MakeRow(row: DatedRow, lag1: Option<real>, lag24: Option<real>, lag168: Option<real>,
                   mean24: Option<real>): (r: FeatureRow)
    requires ValidDate(row.date)
    ensures r.date == row.date && r.temperature == row.temperature && r.humidity == row.humidity
      && r.windSpeed == row.windSpeed && r.irradiance == row.irradiance
    ensures r.hour == 0 && r.month == row.date.month && 1 <= r.month <= 12
    ensures r.dayOfWeek == DayOfWeek(row.date) && 0 <= r.dayOfWeek <= 6
    ensures r.season == Season(r.month) && 1 <= r.season <= 4
    ensures r.isWeekend == (if r.dayOfWeek == 5 || r.dayOfWeek == 6 then 1 else 0)
    ensures r.tempHumidity == Product(row.temperature, row.humidity)
    ensures r.tempWind == Product(row.temperature, row.windSpeed)
    ensures r.humidityWind == Product(row.humidity, row.windSpeed)
    ensures r.lag1 == lag1 && r.lag24 == lag24 && r.lag168 == lag168 && r.rollingMean24 == mean24
  {
    var dow := DayOfWeek(row.date);
    FeatureRow(row.date, row.temperature, row.humidity, row.windSpeed, row.irradiance,
      0, dow, row.date.month, Season(row.date.month), IsWeekend(dow),
      Product(row.temperature, row.humidity), Product(row.temperature, row.windSpeed),
      Product(row.humidity, row.windSpeed),
      lag1, lag24, lag168, mean24)
  }

  predicate DatesValid(rows: seq<DatedRow>) {
    forall r :: r in rows ==> ValidDate(r.date)
  }

  /** All derived columns, row by row; the timestamp has no time of day, so `hour` is 0 throughout. */
  function Features(rows: seq<DatedRow>): (table: seq<FeatureRow>)
    requires DatesValid(rows)
    ensures |table| == |rows|
    ensures forall t {:trigger table[t]} :: 0 <= t < |rows| ==>
      table[t].date == rows[t].date && table[t].irradiance == rows[t].irradiance
    ensures forall t {:trigger table[t]} :: 0 <= t < |rows| ==>
      && table[t].lag1 == Shift(Irradiance(rows), 1)[t]
      && table[t].lag24 == Shift(Irradiance(rows), 24)[t]
      && table[t].lag168 == Shift(Irradiance(rows), 168)[t]
      && table[t].rollingMean24 == RollingMean(Irradiance(rows), RollingWindow)[t]
  {
    var irr := Irradiance(rows);
    var l1, l24, l168 := Shift(irr, 1), Shift(irr, 24), Shift(irr, 168);
    var mean := RollingMean(irr, RollingWindow);
    seq(|rows|, t requires 0 <= t < |rows| => MakeRow(rows[t], l1[t], l24[t], l168[t], mean[t]))
  }

  /** The lag-k column at row t holds the target of row t-k, and is missing when t < k. */
  lemma LagAlignment(rows: seq<DatedRow>, t: nat)
    requires DatesValid(rows) && t < |rows|
    ensures Features(rows)[t].lag1 == if t < 1 then None else rows[t - 1].irradiance
    ensures Features(rows)[t].lag24 == if t < 24 then None else rows[t - 24].irradiance
    ensures Features(rows)[t].lag168 == if t < 168 then None else rows[t - 168].irradiance
  {
  }

  /**
   * Row t of the engineered table carries row t's measurements and the calendar and
   * interaction columns of row t's date and measurements.
   */
  lemma {:induction false} RowColumns(rows: seq<DatedRow>, t: nat)
    requires DatesValid(rows) && t < |rows|
    ensures var x, row := Features(rows)[t], rows[t];
      && x.temperature == row.temperature && x.humidity == row.humidity
      && x.windSpeed == row.windSpeed && x.irradiance == row.irradiance
      && x.hour == 0 && x.month == row.date.month && x.dayOfWeek == DayOfWeek(row.date)
      && x.season == Season(row.date.month)
      && (x.isWeekend == 1 <==> x.dayOfWeek == 5 || x.dayOfWeek == 6)
      && (x.isWeekend == 0 <==> x.dayOfWeek < 5)
      && (x.tempHumidity.Some? <==> row.temperature.Some? && row.humidity.Some?)
      && (x.tempHumidity.Some? ==> x.tempHumidity.value == row.temperature.value * row.humidity.value)
      && (x.tempWind.Some? <==> row.temperature.Some? && row.windSpeed.Some?)
      && (x.tempWind.Some? ==> x.tempWind.value == row.temperature.value * row.windSpeed.value)
      && (x.humidityWind.Some? <==> row.humidity.Some? && row.windSpeed.Some?)
      && (x.humidityWind.Some? ==> x.humidityWind.value == row.humidity.value * row.windSpeed.value)
  {
    RowIsMakeRow(rows, t);
  }

  /** When row t+1 is dated the day after row t, its day of week is the next one. */
  lemma {:induction false} ConsecutiveDays(rows: seq<DatedRow>, t: nat)
    requires DatesValid(rows) && t + 1 < |rows|
    requires rows[t + 1].date == NextDay(rows[t].date)
    ensures Features(rows)[t + 1].dayOfWeek == (Features(rows)[t].dayOfWeek + 1) % 7
  {
    assert ValidDate(rows[t].date) by {
      assert rows[t] in rows;
    }
    RowDay(rows, t);
    RowDay(rows, t + 1);
    DayOfWeekNext(rows[t].date);
  }

  /** The day-of-week column of row t is the day of week of row t's date. */
  lemma {:induction false} RowDay(rows: seq<DatedRow>, t: nat)
    requires DatesValid(rows) && t < |rows|
    ensures Features(rows)[t].dayOfWeek == DayOfWeek(rows[t].date)
  {
    RowIsMakeRow(rows, t);
  }

  /** Row t of the engineered table is assembled from row t and its look-back values. */
  lemma {:induction false} RowIsMakeRow(rows: seq<DatedRow>, t: nat)
    requires DatesValid(rows) && t < |rows|
    ensures ValidDate(rows[t].date)
    ensures var irr := Irradiance(rows);
      Features(rows)[t]
      == MakeRow(rows[t], Shift(irr, 1)[t], Shift(irr, 24)[t], Shift(irr, 168)[t],
                 RollingMean(irr, RollingWindow)[t])
  {
    assert rows[t] in rows;
  }

  /** The lags at row t read only strictly earlier rows: what row t and later rows hold does not matter. */
  lemma LagsUseOnlyEarlierRows(a: seq<DatedRow>, b: seq<DatedRow>, t: nat)
    requires DatesValid(a) && DatesValid(b) && t < |a| && t < |b|
    requires forall i :: 0 <= i < t ==> a[i].irradiance == b[i].irradiance
    ensures Features(a)[t].lag1 == Features(b)[t].lag1
    ensures Features(a)[t].lag24 == Features(b)[t].lag24
    ensures Features(a)[t].lag168 == Features(b)[t].lag168
  {
    LagAlignment(a, t);
    LagAlignment(b, t);
  }

  /** Two columns that agree on a row's window agree on its rolling value. */
  lemma RollingMeanLocal(ca: Column, cb: Column, w: nat, t: nat)
    requires 0 < w && t < |ca| && t < |cb|
    requires forall i :: 0 <= i <= t && i + w > t ==> ca[i] == cb[i]
    ensures RollingMean(ca, w)[t] == RollingMean(cb, w)[t]
  {
    if t + 1 >= w {
      var lo := t + 1 - w;
      var wa, wb := ca[lo..t + 1], cb[lo..t + 1];
      forall i | 0 <= i < w ensures wa[i] == wb[i] {
        assert wa[i] == ca[lo + i] && wb[i] == cb[lo + i];
      }
      assert wa == wb;
    }
  }

  /** The rolling mean at row t reads rows t-23..t and nothing else. */
  lemma RollingMeanWindow(a: seq<DatedRow>, b: seq<DatedRow>, t: nat)
    requires DatesValid(a) && DatesValid(b) && t < |a| && t < |b|
    requires forall i :: 0 <= i <= t && i + RollingWindow > t ==> a[i].irradiance == b[i].irradiance
    ensures Features(a)[t].rollingMean24 == Features(b)[t].rollingMean24
  {
    var ia, ib := Irradiance(a), Irradiance(b);
    forall i | 0 <= i <= t && i + RollingWindow > t ensures ia[i] == ib[i] {
      assert ia[i] == a[i].irradiance && ib[i] == b[i].irradiance;
    }
    RollingMeanLocal(ia, ib, RollingWindow, t);
  }

  lemma {:induction false} SumLastDiffers(w1: Column, w2: Column)
    requires |w1| == |w2| > 0 && AllPresent(w1) && AllPresent(w2)
    requires w1[..|w1| - 1] == w2[..|w2| - 1]
    ensures Sum(w1) - Sum(w2) == w1[|w1| - 1].value - w2[|w2| - 1].value
  {
  }

  lemma DivisionInjective(x: real, y: real, d: real)
    requires d > 0.0 && x != y
    ensures x / d != y / d
  {
    assert (x / d) * d == x && (y / d) * d == y;
  }

  /** Two complete windows that differ only in their last value have different rolling values there. */
  lemma RollingMeanSeesLast(ca: Column, cb: Column, w: nat, t: nat)
    requires 0 < w <= t + 1 <= |ca| && t < |cb|
    requires forall i :: t + 1 - w <= i < t ==> ca[i] == cb[i]
    requires forall i :: t + 1 - w <= i <= t ==> ca[i].Some? && cb[i].Some?
    requires ca[t] != cb[t]
    ensures RollingMean(ca, w)[t] != RollingMean(cb, w)[t]
  {
    var lo := t + 1 - w;
    var wa, wb := ca[lo..t + 1], cb[lo..t + 1];
    forall i | 0 <= i < w ensures wa[i] == ca[lo + i] && wb[i] == cb[lo + i] {
    }
    assert AllPresent(wa) && AllPresent(wb);
    assert wa[..w - 1] == wb[..w - 1];
    SumLastDiffers(wa, wb);
    assert Sum(wa) != Sum(wb);
    RollingMeanAt(ca, w, t);
    RollingMeanAt(cb, w, t);
    DivisionInjective(Sum(wa), Sum(wb), w as real);
  }

  /**
   * Unlike the lags, the rolling mean at row t includes the target of row t itself:
   * two tables that differ only in that one value get different rolling means there.
   */
  lemma RollingMeanSeesCurrentRow(a: seq<DatedRow>, b: seq<DatedRow>, t: nat)
    requires DatesValid(a) && DatesValid(b) && |a| == |b| && RollingWindow <= t + 1 <= |a|
    requires forall i :: 0 <= i < |a| && i != t ==> a[i].irradiance == b[i].irradiance
    requires forall i :: 0 <= i <= t ==> a[i].irradiance.Some? && b[i].irradiance.Some?
    requires a[t].irradiance != b[t].irradiance
    ensures Features(a)[t].rollingMean24 != Features(b)[t].rollingMean24
  {
    var ia, ib := Irradiance(a), Irradiance(b);
    forall i | 0 <= i < |a| ensures ia[i] == a[i].irradiance && ib[i] == b[i].irradiance {
    }
    RollingMeanSeesLast(ia, ib, RollingWindow, t);
  }

  // ---------------------------------------------------------------- dropna

  /** No column of the row is NaN (the index is not a column). */
  predicate Complete(row: FeatureRow) {
    && row.temperature.Some? && row.humidity.Some? && row.windSpeed.Some? && row.irradiance.Some?
    && row.tempHumidity.Some? && row.tempWind.Some? && row.humidityWind.Some?
    && row.lag1.Some? && row.lag24.Some? && row.lag168.Some? && row.rollingMean24.Some?
  }

  /** pandas `dropna()`. */
  function DropNa(table: seq<FeatureRow>): (r: seq<FeatureRow>)
    ensures |r| <= |table|
    ensures forall x :: x in r <==> x in table && Complete(x)
    ensures forall x :: multiset(r)[x] == if Complete(x) then multiset(table)[x] else 0
  {
    FilterCounts(Complete, table);
    Filter(Complete, table)
  }

  predicate NoMissingRaw(rows: seq<DatedRow>) {
    forall t :: 0 <= t < |rows| ==>
      rows[t].temperature.Some? && rows[t].humidity.Some? && rows[t].windSpeed.Some?
      && rows[t].irradiance.Some?
  }

  lemma MakeRowComplete(row: DatedRow, l1: Option<real>, l24: Option<real>, l168: Option<real>,
                        mean: Option<real>)
    requires ValidDate(row.date)
    ensures Complete(MakeRow(row, l1, l24, l168, mean)) <==>
      row.temperature.Some? && row.humidity.Some? && row.windSpeed.Some? && row.irradiance.Some?
      && l1.Some? && l24.Some? && l168.Some? && mean.Some?
  {
  }

  /** The number of leading rows that lack the weekly lag. */
  function WarmupCut(n: nat): (cut: nat)
    ensures cut <= n && (cut == n || cut == Warmup)
  {
    if n <= Warmup then n else Warmup
  }

  /** With no missing measurement, the look-back columns are all present from row 168 on. */
  lemma LookBackPresent(rows: seq<DatedRow>, t: nat)
    requires NoMissingRaw(rows) && Warmup <= t < |rows|
    ensures Shift(Irradiance(rows), 1)[t].Some?
    ensures Shift(Irradiance(rows), 24)[t].Some?
    ensures Shift(Irradiance(rows), 168)[t].Some?
    ensures RollingMean(Irradiance(rows), RollingWindow)[t].Some?
  {
    var irr := Irradiance(rows);
    var w := irr[t + 1 - RollingWindow..t + 1];
    forall i | 0 <= i < |w| ensures w[i].Some? {
      assert w[i] == rows[t + 1 - RollingWindow + i].irradiance;
    }
  }

  /** With no missing measurement, row t of the engineered table is complete exactly when t >= 168. */
  lemma CompleteAfterWarmup(rows: seq<DatedRow>, t: nat)
    requires DatesValid(rows) && NoMissingRaw(rows) && t < |rows|
    ensures Complete(Features(rows)[t]) <==> t >= Warmup
  {
    var irr := Irradiance(rows);
    var l1, l24, l168 := Shift(irr, 1), Shift(irr, 24), Shift(irr, 168);
    var mean := RollingMean(irr, RollingWindow);
    assert rows[t] in rows;
    assert Features(rows)[t] == MakeRow(rows[t], l1[t], l24[t], l168[t], mean[t]);
    MakeRowComplete(rows[t], l1[t], l24[t], l168[t], mean[t]);
    if t >= Warmup {
      LookBackPresent(rows, t);
    }
  }

  /**
   * With no missing measurement, dropping incomplete rows removes exactly the first
   * 168 rows (all of them when there are no more): what is left is the suffix from
   * row 168, of length max(0, n - 168).
   */
  lemma {:induction false} DropNaIsSuffix(rows: seq<DatedRow>)
    requires DatesValid(rows) && NoMissingRaw(rows)
    ensures DropNa(Features(rows)) == Features(rows)[WarmupCut(|rows|)..]
    ensures |DropNa(Features(rows))| == if |rows| <= Warmup then 0 else |rows| - Warmup
  {
    var table := Features(rows);
    var cut := WarmupCut(|rows|);
    CompleteExactlyAfterWarmup(rows);
    DropNaOfPrefix(table, cut);
  }

  lemma CompleteExactlyAfterWarmup(rows: seq<DatedRow>)
    requires DatesValid(rows) && NoMissingRaw(rows)
    ensures forall i :: 0 <= i < |rows| ==> (Complete(Features(rows)[i]) <==> i >= WarmupCut(|rows|))
  {
    forall i | 0 <= i < |rows| ensures Complete(Features(rows)[i]) <==> i >= WarmupCut(|rows|) {
      CompleteAfterWarmup(rows, i);
    }
  }

  /** A table whose incomplete rows are exactly its first `cut` rows loses exactly those. */
  lemma DropNaOfPrefix(table: seq<FeatureRow>, cut: nat)
    requires cut <= |table|
    requires forall i :: 0 <= i < |table| ==> (Complete(table[i]) <==> i >= cut)
    ensures DropNa(table) == table[cut..]
  {
    FilterSuffix(Complete, table, cut);
  }

  // ---------------------------------------------------------------- the whole step

  /** `load_and_preprocess_data` after the file has been read. */
  function LoadAndPreprocess(raw: seq<RawRow>): (r: Result<seq<FeatureRow>, BuildError>)
    ensures r.Failure? <==> exists i :: 0 <= i < |raw| && ParseDate(raw[i].date).None?
    ensures r.Success? ==> forall x :: x in r.value ==>
      Complete(x) && x.hour == 0 && 20150101 <= Key(x.date) <= 20161231
    ensures r.Success? <==> ParseDates(raw).Success?
    ensures ParseDates(raw).Success? ==> DatesValid(WindowFilter(ParseDates(raw).value))
    ensures ParseDates(raw).Success? ==>
      var table := Features(WindowFilter(ParseDates(raw).value));
      forall x :: x in r.value <==> x in table && Complete(x)
  {
    match ParseDates(raw)
    case Failure(e) => Failure(e)
    case Success(rows) =>
      var kept := WindowFilter(rows);
      WindowedFeatures(rows);
      Success(DropNa(Features(kept)))
  }

  /** Every engineered row of the window has hour 0 and a date inside the window. */
  lemma WindowedFeatures(rows: seq<DatedRow>)
    requires forall i :: 0 <= i < |rows| ==> ValidDate(rows[i].date)
    ensures DatesValid(WindowFilter(rows))
    ensures forall x :: x in Features(WindowFilter(rows)) ==>
      x.hour == 0 && 20150101 <= Key(x.date) <= 20161231
  {
    var kept := WindowFilter(rows);
    WindowFilterKeys(rows);
    forall r | r in kept ensures ValidDate(r.date) {
      var i :| 0 <= i < |rows| && rows[i] == r;
    }
    FeaturesKeepKeys(kept, 20150101, 20161231);
  }

  /** Engineered rows have hour 0 and the dates of the rows they come from. */
  lemma FeaturesKeepKeys(rows: seq<DatedRow>, lo: int, hi: int)
    requires DatesValid(rows)
    requires forall r :: r in rows ==> lo <= Key(r.date) <= hi
    ensures forall x :: x in Features(rows) ==> x.hour == 0 && lo <= Key(x.date) <= hi
  {
    var table := Features(rows);
    forall x | x in table ensures x.hour == 0 && lo <= Key(x.date) <= hi {
      var t :| 0 <= t < |table| && table[t] == x;
      assert x.date == rows[t].date && x.hour == 0;
      assert rows[t] in rows;
    }
  }

  /**
   * When every date parses and the rows inside the window have no missing
   * measurement, the engineered table is the window's rows from the 169th on,
   * max(0, n - 168) rows for n rows in the window.
   */
  lemma {:induction false} LoadDropsWarmup(raw: seq<RawRow>)
    requires ParseDates(raw).Success?
    requires NoMissingRaw(WindowFilter(ParseDates(raw).value))
    ensures var kept := WindowFilter(ParseDates(raw).value);
      && LoadAndPreprocess(raw) == Success(Features(kept)[WarmupCut(|kept|)..])
      && |LoadAndPreprocess(raw).value| == if |kept| <= Warmup then 0 else |kept| - Warmup
  {
    var kept := WindowFilter(ParseDates(raw).value);
    DropNaIsSuffix(kept);
  }

  /** The window keeps the relative order of the rows it keeps. */
  lemma WindowFilterAppend(a: seq<DatedRow>, b: seq<DatedRow>)
    ensures WindowFilter(a + b) == WindowFilter(a) + WindowFilter(b)
  {
    FilterAppend(InWindow, a, b);
  }

  /** `dropna` keeps the relative order of the rows it keeps. */
  lemma DropNaAppend(a: seq<FeatureRow>, b: seq<FeatureRow>)
    ensures DropNa(a + b) == DropNa(a) + DropNa(b)
  {
    FilterAppend(Complete, a, b);
  }

  predicate NotLater(x: FeatureRow, y: FeatureRow) {
    !Before(y.date, x.date)
  }

  predicate Chronological(table: seq<FeatureRow>) {
    forall i, j :: 0 <= i < j < |table| ==> NotLater(table[i], table[j])
  }

  predicate DatedNotLater(x: DatedRow, y: DatedRow) {
    !Before(y.date, x.date)
  }

  /** A file whose dates never go backwards yields an engineered table whose dates never go backwards. */
  lemma LoadPreservesDateOrder(raw: seq<RawRow>)
    requires forall i, j :: 0 <= i < j < |raw| ==> raw[i].date <= raw[j].date
    ensures LoadAndPreprocess(raw).Success? ==> Chronological(LoadAndPreprocess(raw).value)
  {
    var parsed := ParseDates(raw);
    if parsed.Success? {
      var rows := parsed.value;
      forall i, j | 0 <= i < j < |rows| ensures DatedNotLater(rows[i], rows[j]) {
        KeyOrder(rows[j].date, rows[i].date);
      }
      FilterPreservesOrder(InWindow, DatedNotLater, rows);
      var kept := WindowFilter(rows);
      var table := Features(kept);
      forall i, j | 0 <= i < j < |table| ensures NotLater(table[i], table[j]) {
        assert DatedNotLater(kept[i], kept[j]);
      }
      FilterPreservesOrder(Complete, NotLater, table);
    }
  }
}

=== FILE: selection.dfy ===
/**
 * Threshold-union feature selection. The three per-column scores (mutual
 * information, correlation with the target, F statistic) come from library
 * statistics and are inputs here; what is modelled is the filtering of column
 * names by threshold and the union of the three lists.
 */
module FeatureSelection {
  import opened Wrappers
  import opened Seqs

  /** A score as pandas holds it; `None` is NaN (a constant column has no correlation and no F statistic). */
  type Score = Option<real>

  const MiThreshold: real := 0.01
  const CorrThreshold: real := 0.1
  const FThreshold: real := 10.0

  /** `score > threshold`; NaN compares false. */
  predicate Exceeds(s: Score, threshold: real) {
    s.Some? && s.value > threshold
  }

  /** `.abs()`, which keeps NaN. */
  function AbsScore(s: Score): (r: Score)
    ensures r.Some? <==> s.Some?
    ensures r.Some? ==> r.value >= 0.0 && (r.value == s.value || r.value == -s.value)
  {
    match s
    case None => None
    case Some(v) => Some(if v < 0.0 then -v else v)
  }

  function AbsScores(scores: seq<Score>): (r: seq<Score>)
    ensures |r| == |scores| && forall i :: 0 <= i < |scores| ==> r[i] == AbsScore(scores[i])
  {
    seq(|scores|, i requires 0 <= i < |scores| => AbsScore(scores[i]))
  }

  /** `[col for col in columns if col != target_col]`. */
  function FeatureColumns(columns: seq<string>, target: string): (r: seq<string>)
    ensures target !in r
    ensures forall c :: c in r <==> c in columns && c != target
  {
    Filter(c => c != target, columns)
  }

  /** Column `name` has, at some position of `names`, a score above `threshold`. */
  ghost predicate PassesAt(names: seq<string>, scores: seq<Score>, threshold: real, name: string)
    requires |names| == |scores|
  {
    exists i :: 0 <= i < |names| && names[i] == name && Exceeds(scores[i], threshold)
  }

  /** `frame[frame[score] > threshold]['feature'].tolist()`: the passing names, in order. */
  function Passing(names: seq<string>, scores: seq<Score>, threshold: real): (r: seq<string>)
    requires |names| == |scores|
    ensures forall c :: c in r <==> PassesAt(names, scores, threshold, c)
  {
    if names == [] then []
    else
      var n := |names| - 1;
      var rest := Passing(names[..n], scores[..n], threshold);
      assert forall c :: PassesAt(names, scores, threshold, c) <==>
        PassesAt(names[..n], scores[..n], threshold, c) || (names[n] == c && Exceeds(scores[n], threshold)) by {
        forall c | PassesAt(names, scores, threshold, c)
          ensures PassesAt(names[..n], scores[..n], threshold, c) || (names[n] == c && Exceeds(scores[n], threshold))
        {
          var i :| 0 <= i < |names| && names[i] == c && Exceeds(scores[i], threshold);
          if i < n {
            assert names[..n][i] == c && scores[..n][i] == scores[i];
          }
        }
        forall c | PassesAt(names[..n], scores[..n], threshold, c)
          ensures PassesAt(names, scores, threshold, c)
        {
          var i :| 0 <= i < n && names[..n][i] == c && Exceeds(scores[..n][i], threshold);
          assert names[i] == c && scores[i] == scores[..n][i];
        }
      }
      if Exceeds(scores[n], threshold) then rest + [names[n]] else rest
  }

  /** The three score vectors: mutual information and F statistic per feature column, correlation per feature column and then the target. */
  datatype Scores = Scores(mi: seq<Score>, corr: seq<Score>, f: seq<Score>)

  predicate ScoresFit(columns: seq<string>, target: string, s: Scores) {
    var n := |FeatureColumns(columns, target)|;
    |s.mi| == n && |s.f| == n && |s.corr| == n + 1
  }

  datatype SelectionError = TargetNotInTable(target: string)

  /** The selection rule: a column is chosen when any of the three thresholds lets it through. */
  ghost predicate Chosen(columns: seq<string>, target: string, s: Scores, c: string)
    requires ScoresFit(columns, target, s)
  {
    var features := FeatureColumns(columns, target);
    || PassesAt(features, s.mi, MiThreshold, c)
    || PassesAt(features + [target], AbsScores(s.corr), CorrThreshold, c)
    || PassesAt(features, s.f, FThreshold, c)
  }

  /**
   * `feature_selection_analysis` as written: the correlation list is taken over the
   * feature columns AND the target (`train_data[feature_cols + [target_col]].corr()`),
   * and `list(set(...))` removes duplicates. The source's list order comes from a hash
   * set; this model keeps first occurrences.
   */
  function SelectFeatures(columns: seq<string>, target: string, s: Scores): (r: Result<seq<string>, SelectionError>)
    requires ScoresFit(columns, target, s)
    ensures r.Failure? <==> target !in columns
    ensures r.Success? ==> NoDuplicates(r.value)
    ensures r.Success? ==> forall c :: c in r.value <==> Chosen(columns, target, s, c)
  {
    if target !in columns then Failure(TargetNotInTable(target))
    else
      var features := FeatureColumns(columns, target);
      var topMi := Passing(features, s.mi, MiThreshold);
      var topCorr := Passing(features + [target], AbsScores(s.corr), CorrThreshold);
      var topF := Passing(features, s.f, FThreshold);
      Success(Dedup(topMi + topCorr + topF))
  }

  /**
   * The target column is selected exactly when its correlation with itself passes
   * the test; for any target that is not constant that correlation is 1, so the
   * target itself ends up among the selected features.
   */
  lemma TargetSelected(columns: seq<string>, target: string, s: Scores)
    requires ScoresFit(columns, target, s) && target in columns
    ensures var n := |FeatureColumns(columns, target)|;
      target in SelectFeatures(columns, target, s).value <==> Exceeds(AbsScore(s.corr[n]), CorrThreshold)
    ensures var n := |FeatureColumns(columns, target)|;
      s.corr[n] == Some(1.0) ==> target in SelectFeatures(columns, target, s).value
  {
    var features := FeatureColumns(columns, target);
    var n := |features|;
    var all := features + [target];
    assert all[n] == target;
    forall i | 0 <= i < n ensures features[i] != target {
      assert features[i] in features;
    }
    if PassesAt(all, AbsScores(s.corr), CorrThreshold, target) {
      var i :| 0 <= i < |all| && all[i] == target && Exceeds(AbsScores(s.corr)[i], CorrThreshold);
      assert i == n;
    }
  }

  lemma PassesAtUnique(names: seq<string>, scores: seq<Score>, threshold: real, i: nat)
    requires |names| == |scores| && NoDuplicates(names) && i < |names|
    ensures PassesAt(names, scores, threshold, names[i]) <==> Exceeds(scores[i], threshold)
  {
    if PassesAt(names, scores, threshold, names[i]) {
      var j :| 0 <= j < |names| && names[j] == names[i] && Exceeds(scores[j], threshold);
      assert j == i;
    }
  }

  /**
   * In a table with distinct column names, the feature column at position i is
   * selected exactly when its mutual information exceeds 0.01, or its absolute
   * correlation exceeds 0.1, or its F statistic exceeds 10.
   */
  lemma FeatureSelectedIff(columns: seq<string>, target: string, s: Scores, i: nat)
    requires ScoresFit(columns, target, s) && target in columns && NoDuplicates(columns)
    requires i < |FeatureColumns(columns, target)|
    ensures var c := FeatureColumns(columns, target)[i];
      c in SelectFeatures(columns, target, s).value <==>
        Exceeds(s.mi[i], MiThreshold) || Exceeds(AbsScore(s.corr[i]), CorrThreshold) || Exceeds(s.f[i], FThreshold)
  {
    var features := FeatureColumns(columns, target);
    var all := features + [target];
    FilterNoDuplicates(c => c != target, columns);
    assert NoDuplicates(all) by {
      forall p, q | 0 <= p < q < |all| ensures all[p] != all[q] {
        if q == |features| {
          assert all[p] == features[p] && features[p] in features;
        }
      }
    }
    PassesAtUnique(features, s.mi, MiThreshold, i);
    PassesAtUnique(features, s.f, FThreshold, i);
    assert all[i] == features[i];
    PassesAtUnique(all, AbsScores(s.corr), CorrThreshold, i);
  }

  /**
   * The selection the code evidently intends ("excluding target"): correlations are
   * taken over the feature columns only, so the target can never be selected.
   */
  function SelectFeaturesExcludingTarget(columns: seq<string>, target: string, s: Scores)
    : (r: Result<seq<string>, SelectionError>)
    requires ScoresFit(columns, target, s)
    ensures r.Failure? <==> target !in columns
    ensures r.Success? ==> NoDuplicates(r.value) && target !in r.value
    ensures r.Success? ==> forall c :: c in r.value <==>
      var features := FeatureColumns(columns, target);
      || PassesAt(features, s.mi, MiThreshold, c)
      || PassesAt(features, AbsScores(s.corr[..|features|]), CorrThreshold, c)
      || PassesAt(features, s.f, FThreshold, c)
  {
    if target !in columns then Failure(TargetNotInTable(target))
    else
      var features := FeatureColumns(columns, target);
      var topMi := Passing(features, s.mi, MiThreshold);
      var topCorr := Passing(features, AbsScores(s.corr[..|features|]), CorrThreshold);
      var topF := Passing(features, s.f, FThreshold);
      Success(Dedup(topMi + topCorr + topF))
  }

  /** The corrected selection differs from the one as written only in leaving the target out. */
  lemma CorrectedDiffersOnlyByTarget(columns: seq<string>, target: string, s: Scores)
    requires ScoresFit(columns, target, s) && target in columns
    ensures forall c :: c in SelectFeaturesExcludingTarget(columns, target, s).value <==>
      c in SelectFeatures(columns, target, s).value && c != target
  {
    var features := FeatureColumns(columns, target);
    var n := |features|;
    var all := features + [target];
    var corrAll, corrFeat := AbsScores(s.corr), AbsScores(s.corr[..n]);
    forall c | c != target
      ensures PassesAt(all, corrAll, CorrThreshold, c) <==> PassesAt(features, corrFeat, CorrThreshold, c)
    {
      if PassesAt(all, corrAll, CorrThreshold, c) {
        var i :| 0 <= i < |all| && all[i] == c && Exceeds(corrAll[i], CorrThreshold);
        assert i < n && features[i] == c && corrFeat[i] == corrAll[i];
      }
      if PassesAt(features, corrFeat, CorrThreshold, c) {
        var i :| 0 <= i < n && features[i] == c && Exceeds(corrFeat[i], CorrThreshold);
        assert all[i] == c && corrAll[i] == corrFeat[i];
      }
    }
  }
}

=== FILE: seqs.dfy ===
/** Order-preserving filtering and de-duplication of sequences. */
module Seqs {

  /** The elements of `s` satisfying `p`, in their original order. */
  function Filter<T(!new)>(p: T -> bool, s: seq<T>): (r: seq<T>)
    ensures |r| <= |s|
    ensures forall x :: x in r <==> x in s && p(x)
  {
    if s == [] then []
    else
      var init, last := s[..|s| - 1], s[|s| - 1];
      var rest := Filter(p, init);
      assert forall x :: x in s <==> x in init || x == last;
      if p(last) then rest + [last] else rest
  }

  /** Every passing element keeps its number of occurrences; every failing one disappears. */
  lemma {:induction false} FilterCounts<T(!new)>(p: T -> bool, s: seq<T>)
    ensures forall x :: multiset(Filter(p, s))[x] == if p(x) then multiset(s)[x] else 0
  {
    if s != [] {
      var init, last := s[..|s| - 1], s[|s| - 1];
      FilterCounts(p, init);
      assert s == init + [last];
    }
  }

  /**
   * Filtering a concatenation filters each part and keeps them in order; with the
   * one-element case this determines the filter completely.
   */
  lemma {:induction false} FilterAppend<T(!new)>(p: T -> bool, a: seq<T>, b: seq<T>)
    ensures Filter(p, a + b) == Filter(p, a) + Filter(p, b)
    decreases |b|
  {
    if b == [] {
      assert a + b == a;
    } else {
      var b' := b[..|b| - 1];
      assert (a + b)[..|a + b| - 1] == a + b';
      FilterAppend(p, a, b');
    }
  }

  /** A single element is kept exactly when it passes. */
  lemma FilterSingleton<T(!new)>(p: T -> bool, x: T)
    ensures Filter(p, [x]) == if p(x) then [x] else []
  {
    assert [x][..0] == [];
  }

  /** A sequence whose every element fails yields nothing. */
  lemma {:induction false} FilterNonePass<T(!new)>(p: T -> bool, s: seq<T>)
    requires forall i :: 0 <= i < |s| ==> !p(s[i])
    ensures Filter(p, s) == []
  {
    if s != [] {
      var init := s[..|s| - 1];
      assert forall i :: 0 <= i < |init| ==> init[i] == s[i];
      FilterNonePass(p, init);
    }
  }

  /** When exactly the elements from position `cut` on pass, filtering keeps the suffix from `cut`. */
  lemma {:induction false} FilterSuffix<T(!new)>(p: T -> bool, s: seq<T>, cut: nat)
    requires cut <= |s|
    requires forall i :: 0 <= i < cut ==> !p(s[i])
    requires forall i :: cut <= i < |s| ==> p(s[i])
    ensures Filter(p, s) == s[cut..]
    decreases |s|
  {
    if |s| == cut {
      FilterNonePass(p, s);
    } else {
      var init := s[..|s| - 1];
      assert forall i :: 0 <= i < |init| ==> init[i] == s[i];
      FilterSuffix(p, init, cut);
      assert s[cut..] == init[cut..] + [s[|s| - 1]];
    }
  }

  /** A relation that holds between every earlier and every later element still holds after filtering. */
  lemma {:induction false} FilterPreservesOrder<T(!new)>(p: T -> bool, le: (T, T) -> bool, s: seq<T>)
    requires forall i, j :: 0 <= i < j < |s| ==> le(s[i], s[j])
    ensures forall i, j :: 0 <= i < j < |Filter(p, s)| ==> le(Filter(p, s)[i], Filter(p, s)[j])
  {
    if s != [] {
      var init := s[..|s| - 1];
      var last := s[|s| - 1];
      FilterPreservesOrder(p, le, init);
      var rest := Filter(p, init);
      forall x | x in rest ensures le(x, last) {
        assert x in init;
        var k :| 0 <= k < |init| && init[k] == x;
        assert s[k] == x;
      }
    }
  }

  predicate NoDuplicates<T(==)>(s: seq<T>) {
    forall i, j :: 0 <= i < j < |s| ==> s[i] != s[j]
  }

  /** Filtering a sequence without duplicates leaves one without duplicates. */
  lemma {:induction false} FilterNoDuplicates<T(!new)>(p: T -> bool, s: seq<T>)
    requires NoDuplicates(s)
    ensures NoDuplicates(Filter(p, s))
  {
    if s != [] {
      var init := s[..|s| - 1];
      assert NoDuplicates(init);
      FilterNoDuplicates(p, init);
      assert s[|s| - 1] !in init;
    }
  }

  /** Keeps the first occurrence of every element of `s`. */
  function Dedup<T(==,!new)>(s: seq<T>): (r: seq<T>)
    ensures NoDuplicates(r)
    ensures forall x :: x in r <==> x in s
  {
    if s == [] then []
    else
      var rest := Dedup(s[..|s| - 1]);
      assert forall x :: x in s <==> x in s[..|s| - 1] || x == s[|s| - 1];
      if s[|s| - 1] in rest then rest else rest + [s[|s| - 1]]
  }
}

=== FILE: split.dfy ===
/** The chronological train/test split of the engineered table: a prefix and the rest. */
module TrainTestSplit {
  import opened Wrappers
  import opened Calendar
  import opened Seqs
  import opened FeatureBuilder

  /**
   * `int(len(df) * 0.8)`. For the table sizes that occur, the double product
   * truncates to the exact floor of 4n/5.
   */
  function TrainSize(n: nat): (k: nat)
    ensures k <= n
    ensures 5 * k <= 4 * n < 5 * k + 5
  {
    4 * n / 5
  }

  datatype Split<T> = Split(train: seq<T>, test: seq<T>)

  /** `df.iloc[:k]` and `df.iloc[k:]`. */
  function SplitAt<T>(rows: seq<T>, k: nat): (s: Split<T>)
    requires k <= |rows|
    ensures s.train + s.test == rows
    ensures |s.train| == k && |s.test| == |rows| - k
  {
    Split(rows[..k], rows[k..])
  }

  /** The split performed on the engineered table. */
  function TrainTest<T>(table: seq<T>): (s: Split<T>)
    ensures s.train + s.test == table
    ensures |s.train| == TrainSize(|table|)
    ensures |table| > 0 ==> |s.test| > 0
  {
    SplitAt(table, TrainSize(|table|))
  }

  /**
   * Every position of the table lands in exactly one part: positions below k in
   * the training part, at the same place, and the others in the test part, shifted by k.
   */
  lemma SplitPartitions<T>(rows: seq<T>, k: nat, p: nat)
    requires k <= |rows| && p < |rows|
    ensures p < k ==> p < |SplitAt(rows, k).train| && SplitAt(rows, k).train[p] == rows[p]
    ensures p >= k ==> p - k < |SplitAt(rows, k).test| && SplitAt(rows, k).test[p - k] == rows[p]
  {
    var s := SplitAt(rows, k);
    assert rows == s.train + s.test;
  }

  /**
   * On a table whose dates never go backwards, no training row is dated after a test
   * row: the split never trains on data later than what it tests on.
   */
  lemma SplitIsChronological(table: seq<FeatureRow>, k: nat)
    requires k <= |table| && Chronological(table)
    ensures forall x, y :: x in SplitAt(table, k).train && y in SplitAt(table, k).test ==>
      !Before(y.date, x.date)
  {
    var s := SplitAt(table, k);
    forall x, y | x in s.train && y in s.test ensures !Before(y.date, x.date) {
      var i :| 0 <= i < |s.train| && s.train[i] == x;
      var j :| 0 <= j < |s.test| && s.test[j] == y;
      assert table[i] == x && table[k + j] == y;
    }
  }

  /**
   * Timestamps carry no time of day, so the split can cut through one day: when
   * every row of the file has the same date in the window and no missing value,
   * the last training row and the first test row of the engineered table share
   * that date. The order between the parts is by position, not strict in time.
   */
  lemma {:induction false} SameDayStraddlesSplit(raw: seq<RawRow>, v: int)
    requires |raw| >= Warmup + 2
    requires 20150101 <= v <= 20161231 && ParseDate(v).Some?
    requires forall i :: 0 <= i < |raw| ==> raw[i].date == v
    requires forall i :: 0 <= i < |raw| ==>
      raw[i].temperature.Some? && raw[i].humidity.Some? && raw[i].windSpeed.Some?
      && raw[i].irradiance.Some?
    ensures LoadAndPreprocess(raw).Success?
    ensures var s := TrainTest(LoadAndPreprocess(raw).value);
      && |s.train| > 0 && |s.test| > 0
      && s.train[|s.train| - 1].date == s.test[0].date
  {
    var d := ParseDate(v).value;
    UniformLoad(raw, v, d);
    OneDateStraddlesSplit(LoadAndPreprocess(raw).value, d);
  }

  /** Such a file loads into a table of at least two rows, all of its one date. */
  lemma {:induction false} UniformLoad(raw: seq<RawRow>, v: int, d: Date)
    requires |raw| >= Warmup + 2
    requires 20150101 <= v <= 20161231 && ParseDate(v).Some? && ParseDate(v).value == d
    requires forall i :: 0 <= i < |raw| ==> raw[i].date == v
    requires forall i :: 0 <= i < |raw| ==>
      raw[i].temperature.Some? && raw[i].humidity.Some? && raw[i].windSpeed.Some?
      && raw[i].irradiance.Some?
    ensures LoadAndPreprocess(raw).Success? && |LoadAndPreprocess(raw).value| >= 2
    ensures forall j :: 0 <= j < |LoadAndPreprocess(raw).value| ==>
      LoadAndPreprocess(raw).value[j].date == d
  {
    UniformFile(raw, v, d);
    var rows := ParseDates(raw).value;
    FeaturesOfOneDate(rows, d);
    OneDateSuffix(Features(rows), Warmup, d);
    CleanLoad(raw, rows);
    assert LoadAndPreprocess(raw).value == Features(rows)[Warmup..];
  }

  /** Engineered rows keep the dates of the rows they come from. */
  lemma {:induction false} FeaturesOfOneDate(rows: seq<DatedRow>, d: Date)
    requires DatesValid(rows)
    requires forall i :: 0 <= i < |rows| ==> rows[i].date == d
    ensures forall i :: 0 <= i < |Features(rows)| ==> Features(rows)[i].date == d
  {
    var all := Features(rows);
    forall i | 0 <= i < |all| ensures all[i].date == d {
      assert all[i].date == rows[i].date;
    }
  }

  /** A file whose rows all decode, lie in the window and are complete loads into its rows from the 169th on. */
  lemma {:induction false} CleanLoad(raw: seq<RawRow>, rows: seq<DatedRow>)
    requires ParseDates(raw) == Success(rows) && |rows| >= Warmup
    requires WindowFilter(rows) == rows && NoMissingRaw(rows)
    ensures DatesValid(rows) && LoadAndPreprocess(raw) == Success(Features(rows)[Warmup..])
  {
    assert WindowFilter(ParseDates(raw).value) == rows && WarmupCut(|rows|) == Warmup;
    LoadDropsWarmup(raw);
  }

  /** A file of one in-window date without missing values decodes whole and passes the window whole. */
  lemma {:induction false} UniformFile(raw: seq<RawRow>, v: int, d: Date)
    requires 20150101 <= v <= 20161231 && ParseDate(v).Some? && ParseDate(v).value == d
    requires forall i :: 0 <= i < |raw| ==> raw[i].date == v
    requires forall i :: 0 <= i < |raw| ==>
      raw[i].temperature.Some? && raw[i].humidity.Some? && raw[i].windSpeed.Some?
      && raw[i].irradiance.Some?
    ensures ParseDates(raw).Success?
    ensures WindowFilter(ParseDates(raw).value) == ParseDates(raw).value
    ensures NoMissingRaw(ParseDates(raw).value)
    ensures forall i :: 0 <= i < |ParseDates(raw).value| ==> ParseDates(raw).value[i].date == d
  {
    UniformParse(raw, v, d);
    var rows := ParseDates(raw).value;
    assert forall i :: 0 <= i < |rows| ==> rows[i].date == d;
    OneDateInWindow(rows, d);
  }

  /** Rows that all carry one date of the window pass the window unchanged. */
  lemma {:induction false} OneDateInWindow(rows: seq<DatedRow>, d: Date)
    requires ValidDate(d) && 20150101 <= Key(d) <= 20161231
    requires forall i :: 0 <= i < |rows| ==> rows[i].date == d
    ensures WindowFilter(rows) == rows
  {
    KeyOrder(d, WindowStart);
    KeyOrder(WindowEnd, d);
    FilterSuffix(InWindow, rows, 0);
  }

  /** Rows that all carry the key of one date decode, row by row, to that date. */
  lemma {:induction false} UniformParse(raw: seq<RawRow>, v: int, d: Date)
    requires ParseDate(v).Some? && ParseDate(v).value == d
    requires forall i :: 0 <= i < |raw| ==> raw[i].date == v
    ensures ParseDates(raw).Success?
    ensures forall i :: 0 <= i < |raw| ==> ParseDates(raw).value[i] == WithDate(raw[i], d)
    decreases |raw|
  {
    if raw != [] {
      UniformParse(raw[1..], v, d);
      assert forall i :: 1 <= i < |raw| ==> raw[i] == raw[1..][i - 1];
    }
  }

  /** Dropping a prefix of rows all of one date leaves rows of that date. */
  lemma {:induction false} OneDateSuffix(table: seq<FeatureRow>, cut: nat, d: Date)
    requires cut <= |table|
    requires forall i :: 0 <= i < |table| ==> table[i].date == d
    ensures forall j :: 0 <= j < |table[cut..]| ==> table[cut..][j].date == d
  {
    forall j | 0 <= j < |table[cut..]| ensures table[cut..][j].date == d {
      assert table[cut..][j] == table[cut + j];
    }
  }

  /** A table of at least two rows, all of one date, has that date on both sides of the split. */
  lemma {:induction false} OneDateStraddlesSplit(table: seq<FeatureRow>, d: Date)
    requires |table| >= 2
    requires forall i :: 0 <= i < |table| ==> table[i].date == d
    ensures var s := TrainTest(table);
      && |s.train| > 0 && |s.test| > 0
      && s.train[|s.train| - 1].date == s.test[0].date
  {
    var k := TrainSize(|table|);
    SplitPartitions(table, k, k - 1);
    SplitPartitions(table, k, k);
  }
}

=== FILE: wrappers.dfy ===
/** Option and Result, used for missing values (NaN) and for the pipeline's error paths. */
module Wrappers {

  /** `None` stands for a missing value (NaN in the table) or a failed call. */
  datatype Option<+T> = None | Some(value: T)

  /** The outcome of a step that can raise. */
  datatype Result<+T, +E> = Success(value: T) | Failure(error: E)
}
